=== FILE: README.md ===
# fac session controller, modelled in Dafny

`fac` walks a user through the unresolved merge conflicts of a working tree in
a terminal UI. This project models the session controller in `main.go`:

- the Enter-key handler `parseInput`, which submits the input to the command
  evaluator and tracks consecutive unknown commands;
- one run of the UI (`runUI`), where the terminal is reduced to the handled key events;
- the recreate loop `mainLoop`, which hands the terminal to an external
  editor and builds a fresh UI afterwards;
- `findConflicts`, which flattens every file's conflicts into one list;
- `main`, which bootstraps the session, exits early when there is nothing to
  resolve, writes the files back in order and prints the summary.

The package-level globals `conflicts`, `cur` and `consecutiveErrCnt` form an
explicit `Session.State` record. The record is passed into and returned from
every operation. The sentinel errors `ErrUnknownCmd`, `ErrOpenEditor` and
`gocui.ErrQuit` are constructors of `Errors.Error`. Every other error is `Other`.
Calls into code outside `main.go` become entries in a list of `Session.Effect`s:
`Evaluate`, `Select`, `PrintPrompt`, `editor.Open`, `Update`, `WriteChanges` and
`PrintSummary`. Their results are inputs to the model: the evaluator's answer
on each `Enter` key, the setup and end of each UI run, the editor's outcome,
the scan's outcome and each file's write outcome.

Modules, one per component:

| module | file | models |
|---|---|---|
| Errors | errors.dfy | Go `error` values and `(T, error)` results |
| Text | text.dfy | `strings.TrimSuffix(buffer, "\n")` |
| Registry | registry.dfy | files, conflict references, `findConflicts` |
| Session | session.dfy | the session record, effects, handler steps |
| Dispatch | dispatch.dfy | `parseInput` |
| Ui | ui.dfy | key handlers and `runUI` |
| Tolerance | tolerance.dfy | the unknown-command counter across many commands |
| Loop | loop.dfy | `mainLoop` |
| Program | program.dfy | `main` and the write-back loop |

## Behaviour of main.go worth noting

- An evaluator error other than the three sentinels does not abort the
  session. `parseInput` returns it and gocui's MainLoop ends. `mainLoop` then
  treats it like any other non-sentinel result and builds a new UI. Failures
  of `gocui.NewGui` and `SetKeybinding` are handled the same way. So a UI that
  can never be created is retried forever (`Loop.SetupFailuresRetry`).
- After the fallback fires, the counter is not reset. Every further unknown
  command fires the fallback again until a command succeeds
  (`Tolerance.FallbackCount`).
- A failed `Update` after an editor session raises the counter by one. It
  never calls the forced `Select` itself, whatever the count
  (`Loop.RoundStepOutcome`).
- `main.go` never assigns `cur` after its initialiser. `Evaluate` and
  `Select` live in the same package and may move it, but the changes they
  make are not modelled (see "## Left out"). So the model holds the cursor
  fixed, and every statement about the cursor position, such as
  `Loop.MainLoop`'s, is relative to that.

## Model

| member | source | states |
|---|---|---|
| Text.TrimNewline | main.go:39 | The text handed to the evaluator is the buffer minus one trailing newline when the buffer ends in one, and the buffer unchanged otherwise; it is a prefix at most one character shorter |
| Text.StripsOneNewlineUnique | main.go:39 | Only one text is the buffer with at most its one trailing newline removed, so that description determines the evaluated text |
| Text.TrimNewlineAfterAppend | main.go:39 | Trimming undoes appending a newline |
| Text.TrimNewlineRemovesOnlyOne | main.go:39 | Of two trailing newlines only the last is removed |
| Dispatch.ParseInput | main.go:38-58 | Evaluates the stripped buffer against the current conflict, before anything else. On success the counter is 0 and nil is returned. On ErrUnknownCmd the counter rises by exactly 1 and nil is returned. Any other error is returned unchanged, with the state untouched and no call after Evaluate. The prompt is the last call whenever nil is returned. Conflicts and cursor never change |
| Dispatch.ParseInputCalls | main.go:38-58 | Evaluate is called exactly once. When its answer is tolerated, the only call between it and the closing prompt is at most one forced selection of the current conflict. Any other answer ends the handler with no further call |
| Dispatch.ParseInputFallback | main.go:44-48 | The forced Select of the current conflict happens exactly when an unknown command takes the counter past 3, once per such command. No other selection is made and nothing is written back |
| Ui.HandleKey | main.go:25-58 | Enter runs parseInput. Ctrl+C and the update queued by globalQuit return ErrQuit and change nothing. The returned error depends only on the key, never on the session |
| Ui.FirstFailureIsFirst | main.go:94-105 | The error that ends the UI's main loop is nil exactly when every handler returns nil. Otherwise it is the error of the earliest failing handler |
| Ui.HandleKeys | main.go:94-105 | Running the handlers in order until one fails returns that first failure, whatever the session. Cursor and conflicts are kept |
| Ui.HandleKeysEffects | main.go:43-57 | The handlers of one run write nothing back, and the only selections they make are forced selections of the current conflict |
| Ui.RunUI | main.go:84-108 | A setup failure is returned before anything is selected. Otherwise the current conflict is selected unforced first, and the run returns the first handler error or else what the framework returned |
| Tolerance.HandleKeysAppend | main.go:94-105 | Handling two batches of keys one after the other equals handling them together, when the first batch ends no run |
| Tolerance.HandleKeysStopsAtFirstFailure | main.go:103-104 | gocui's MainLoop returns at the first handler error, so no key after it is handled: whatever follows the first failing key makes no difference to the calls, the session or the result |
| Tolerance.RunUICounter | main.go:84-108 | The counter a UI run leaves continues the one the session brought in, since consecutiveErrCnt is a package-level variable that runUI never resets. A failed setup leaves it alone. Otherwise it is the trailing streak of unknown commands among the keys handled before the run ended, added to the incoming count when every handled key was an unknown command |
| Tolerance.CounterIsTrailingStreak | main.go:44-54 | Over commands that each succeed or are unknown, the counter equals the length of the final run of unknown commands. When no command succeeded, that run continues the starting count |
| Tolerance.FallbackCount | main.go:44-48 | Over n unknown commands from count c, the counter ends at c + n. The number of forced selections is the number of those commands whose new count exceeds 3 |
| Tolerance.FourthUnknownFallsBack | main.go:45-47 | Four unknown commands from a fresh counter force exactly one selection and leave the counter at 4 |
| Tolerance.ThreeUnknownsTolerated | main.go:45-47 | Three unknown commands from a fresh counter force none |
| Registry.FindConflicts | main.go:63-81 | A Getwd or Find error is returned with nothing appended and no files. On success the list becomes the old list followed by one reference per conflict of every file, growing by the total count |
| Registry.RefsLength | main.go:73-78 | The references appended number the sum of the per-file conflict counts |
| Registry.RefsPosition | main.go:73-78 | Conflict j of file i is referenced, at the position given by the conflicts of all earlier files plus j |
| Registry.RefsValid | main.go:73-78 | Every appended reference points at an existing conflict |
| Registry.RefsOrdered | main.go:73-78 | References come in strictly increasing file-then-conflict order, so none repeats |
| Registry.RefsDerefToFlatten | main.go:73-78 | Following the references yields exactly the concatenation of each file's conflicts in file order |
| Loop.RoundStep | main.go:113-127 | A round never moves the cursor or changes the conflict list. Whether it continues, stops or aborts depends only on what the UI run returned and on the editor's outcome |
| Loop.RoundStepOutcome | main.go:113-127 | ErrQuit stops the loop. ErrOpenEditor with a failing editor.Open aborts with that error. After a successful open, a failed Update adds exactly 1 to the counter and a successful one changes nothing. Any other result, nil included, continues with the run's state and calls. When the run asks for the editor, editor.Open is called on the current conflict after the run's own calls, and Update then applies the lines it returned to that same conflict. A round writes nothing back and the editor part forces no selection |
| Loop.MainLoop | main.go:111-131 | The conflict list and the cursor are the same when the loop ends as when it started |
| Loop.LoopPendingIffAllContinue | main.go:112-128 | The loop keeps running exactly while no round quits or fails to open the editor |
| Loop.MainLoopWritesNothing | main.go:111-131 | The interactive loop never writes a file back nor prints the summary |
| Loop.LoopStopsAtFirstVerdict | main.go:112-130 | The loop ends at the first round that quits or fails to open the editor, with that round's outcome |
| Loop.LoopIgnoresLaterRounds | main.go:112-130 | Rounds after the first one that quits or fails to open the editor are never consulted |
| Loop.SetupFailuresRetry | main.go:84-128 | A UI whose setup always fails is recreated forever, with no change to the session |
| Loop.OtherErrorsRecreateUi | main.go:113-127 | A run ended by a non-sentinel error continues the loop, with no change beyond the run's own |
| Loop.AllResolvedQuits | main.go:25-29 | A run whose first event is the quit queued by globalQuit stops the loop right after the unforced selection, leaving the session as it was |
| Loop.AppliedThenEditorRound | main.go:111-131 | A direct command followed by an editor request with a valid update tears the UI down and recreates it once. The counter ends at 0, the cursor does not move, and the calls happen in the listed order |
| Loop.EditorRoundTripThenQuit | main.go:111-131 | That round followed by the quit signal: the loop quits with the counter at 0 and the cursor where it started, on the first conflict, since the model drops the collaborators' changes to the cursor |
| Program.Start | main.go:15-21 | The loop starts with one reference per conflict found, which following in order yields every file's conflicts in file order, with the cursor at 0 and the counter at 0; it is positioned on a conflict whenever any was found |
| Program.WriteBack | main.go:160-164 | Files are written in order and at most once each, stopping at the first failure, whose error is returned; every file before it was written successfully |
| Program.Finish | main.go:156-166 | An editor failure from the loop dies with that error and writes nothing. After a quit, the files are written once each and in order, up to and including the first failing write; the run then dies with that write's error. The summary is printed last, and the run finishes, exactly when the loop quit and every write succeeded |
| Program.FinishedWritesEveryFile | main.go:156-166 | A finished run quit the loop and then wrote every file exactly once, in order, before printing the summary |
| Program.FirstWriteFailureDies | main.go:160-163 | When the first file cannot be written, main dies with that write's error right after attempting it, and no other file is written |
| Program.Run | main.go:138-167 | Settings, working-directory and scan errors die with that error before any UI. Finding no conflicts exits with status 0 and shows no UI. Otherwise the loop starts from the conflicts found and the end of main behaves as Finish describes. The summary is printed exactly when the run finishes. Unless the loop is still running, the exit status is 0 exactly when settings, working directory and scan all succeeded and either no conflict was found or the loop quit and every file was written |

## Left out

- gocui itself is not modelled: NewGui, Close, SetManagerFunc, layout, the cursor flag, and the view operations Clear, SetCursor and Buffer. A run is reduced to a setup outcome, the handled keys and the framework's own return value.
- The evaluator, Select, PrintPrompt and PrintSummary live in files that are not part of this model. They appear only as effects. Any change they make to conflicts, `cur` or the counter is not modelled, so in the model the cursor stays where main put it.
- editor.Open, Update, conflict.Find, os.Getwd, key.LoadSettings and WriteChanges are external. Their outcomes are inputs. The loaded key binding is not kept, because main.go never reads it.
- The text `die` prints, its colouring and the "No conflicts detected" notice are not modelled. The model records only the error or the kind of exit.
- gocui's event queue and goroutines are reduced to the order of key events in a run. `globalQuit` becomes the `AllResolved` key.
- Loop.MainLoop: the Go loop runs until it quits or aborts. The model consumes a finite sequence of rounds and reports `Pending` when they run out.
- Session.State: `consecutiveErrCnt` is a Go `int`. The model counts with an unbounded `nat` and ignores wrap-around, which would need more than 2^63 commands.
- Dispatch.ParseInput: indexing `conflicts[cur]` out of range would panic in Go. The model requires the cursor to be in range, which main establishes before the loop.
- `viewOrientation` is not modelled, because main.go only initialises it.

=== FILE: dispatch.dfy ===
/** parseInput: the Enter-key handler that submits the input buffer to the
    command evaluator and sorts its answer. */
module Dispatch {
  import opened Errors
  import opened Text
  import opened Session

  /** Consecutive unknown commands tolerated before the fallback selection. */
  const FallbackThreshold := 3

  /** Evaluator answers parseInput absorbs instead of returning. */
  predicate Tolerated(result: Status) {
    result.Pass? || result == Fail(UnknownCmd)
  }

  /** parseInput with `result` standing for what Evaluate returned. */
  function ParseInput(s: State, buffer: string, result: Status): (r: Step)
    requires Active(s)
    ensures SamePosition(s, r.state)
    ensures |r.effects| > 0 && r.effects[0].Evaluated? && r.effects[0].target == Current(s)
    ensures StripsOneNewline(buffer, r.effects[0].text)
    ensures r.ret.Pass? <==> Tolerated(result)
    ensures result.Pass? ==> r.state.errCnt == 0
    ensures result == Fail(UnknownCmd) ==> r.state.errCnt == s.errCnt + 1
    ensures !Tolerated(result) ==> r.ret == result && r.state == s && PromptPrinted !in r.effects
    ensures Tolerated(result) ==> r.effects[|r.effects| - 1] == PromptPrinted
    ensures !Tolerated(result) ==> |r.effects| == 1
  {
    var target := Current(s);
    var evaluated := [Evaluated(target, TrimNewline(buffer))];
    match result
    case Pass =>
      Step(s.(errCnt := 0), evaluated + [PromptPrinted], Pass)
    case Fail(err) =>
      if err == UnknownCmd then
        var n := s.errCnt + 1;
        var fallback := if n > FallbackThreshold then [Selected(target, true)] else [];
        Step(s.(errCnt := n), evaluated + fallback + [PromptPrinted], Pass)
      else
        Step(s, evaluated, result)
  }

  /** The calls parseInput makes: Evaluate once, first; then, when the
      answer is tolerated, at most the forced selection of the current
      conflict before the closing prompt, and otherwise nothing at all. */
  lemma ParseInputCalls(s: State, buffer: string, result: Status)
    requires Active(s)
    ensures var r := ParseInput(s, buffer, result);
            && (!Tolerated(result) ==> r.effects == [Evaluated(Current(s), TrimNewline(buffer))])
            && (Tolerated(result) ==> 2 <= |r.effects| <= 3)
            && forall i :: 0 < i < |r.effects| - 1 ==> r.effects[i] == Selected(Current(s), true)
  {
  }

  /** The fallback: parseInput forces a selection of the current conflict
      exactly when an unknown command takes the counter past the threshold,
      so on the fourth unknown command in a row and every one after it. It
      makes no other selection and writes nothing back. */
  lemma ParseInputFallback(s: State, buffer: string, result: Status)
    requires Active(s)
    ensures var r := ParseInput(s, buffer, result);
            && (Selected(Current(s), true) in r.effects <==>
                  result == Fail(UnknownCmd) && s.errCnt + 1 > FallbackThreshold)
            && ForcedCount(r.effects) ==
                  (if result == Fail(UnknownCmd) && s.errCnt + 1 > FallbackThreshold then 1 else 0)
            && forall e <- r.effects :: !e.IsFinal() && (e.Selected? ==> e == Selected(Current(s), true))
  {
    var evaluated := [Evaluated(Current(s), TrimNewline(buffer))];
    if result == Fail(UnknownCmd) {
      var fallback := if s.errCnt + 1 > FallbackThreshold then [Selected(Current(s), true)] else [];
      ForcedCountAppend(evaluated + fallback, [PromptPrinted]);
      ForcedCountAppend(evaluated, fallback);
    } else {
      ForcedCountAppend(evaluated, [PromptPrinted]);
    }
  }
}

=== FILE: errors.dfy ===
/** The error values the session controller branches on.
    Go compares these sentinels by identity (`err == ErrUnknownCmd`); here they
    are the closed set of constructors of one datatype, and every error the
    controller does not recognise is an `Other`. */
module Errors {

  datatype Error =
    | UnknownCmd          // ErrUnknownCmd: the evaluator did not understand the input
    | OpenEditor          // ErrOpenEditor: the evaluator asks for the external editor
    | Quit                // gocui.ErrQuit: leave the interactive loop
    | Other(msg: string)  // any other error, carried through unchanged

  /** A Go `error` result: nil (`Pass`) or an error value. */
  datatype Status = Pass | Fail(err: Error)

  /** A Go `(T, error)` result where exactly one of the two is meaningful. */
  datatype Result<T> = Success(value: T) | Failure(err: Error)
}

=== FILE: loop.dfy ===
/** mainLoop: recreate the UI after every run until the user quits or the
    editor cannot be opened. */
module Loop {
  import opened Errors
  import opened Session
  import opened Ui
  import opened Text
  import opened Registry

  /** What editor.Open returned. */
  datatype EditorResult = Opened(lines: seq<string>) | OpenFailed(err: Error)

  /** One pass of the `for` loop: a UI run, and, consulted only when that run
      asks for the editor, the editor's outcome and that of Update. */
  datatype Round = Round(ui: UiRun, editor: EditorResult, update: Status)

  /** How a round leaves the loop. */
  datatype Next = Continue | Stop | Abort(err: Error)

  /** The end of mainLoop, or Pending when the given rounds ran out while it
      was still recreating the UI. */
  datatype Exit = Quitted | Aborted(err: Error) | Pending

  datatype RoundResult = RoundResult(state: State, effects: seq<Effect>, next: Next)

  datatype LoopResult = LoopResult(state: State, effects: seq<Effect>, exit: Exit)

  /** How a round leaves the loop, whatever the session. */
  function Verdict(rd: Round): Next {
    match RunStatus(rd.ui)
    case Fail(Quit) => Stop
    case Fail(OpenEditor) => if rd.editor.OpenFailed? then Abort(rd.editor.err) else Continue
    case _ => Continue
  }

  /** One iteration of mainLoop's body. */
  function RoundStep(s: State, rd: Round): (r: RoundResult)
    requires Active(s)
    ensures SamePosition(s, r.state)
    ensures r.next == Verdict(rd)
  {
    var ran := RunUI(s, rd.ui);
    if ran.ret == Fail(OpenEditor) then
      var target := Current(ran.state);
      var withEditor := ran.effects + [EditorOpened(target)];
      match rd.editor
      case OpenFailed(err) =>
        RoundResult(ran.state, withEditor, Abort(err))
      case Opened(lines) =>
        var cnt := if rd.update.Fail? then ran.state.errCnt + 1 else ran.state.errCnt;
        RoundResult(ran.state.(errCnt := cnt), withEditor + [Updated(target, lines)], Continue)
    else if ran.ret == Fail(Quit) then
      RoundResult(ran.state, ran.effects, Stop)
    else
      RoundResult(ran.state, ran.effects, Continue)
  }

  /** What a round does with the outcome of its UI run: ErrQuit stops the
      loop; ErrOpenEditor opens the editor, aborting with the editor's error
      when that fails, and otherwise adds one to the counter exactly when the
      update fails. The editor is opened on the current conflict after the
      run's own calls, and Update applies the lines it returned to that same
      conflict. Every other outcome leaves the run's state and calls as
      they are. No round writes anything back, and the editor part never
      forces a selection. */
  lemma RoundStepOutcome(s: State, rd: Round)
    requires Active(s)
    ensures var r := RoundStep(s, rd);
            var ran := RunUI(s, rd.ui);
            && (r.next == Stop <==> ran.ret == Fail(Quit))
            && (r.next.Abort? <==> ran.ret == Fail(OpenEditor) && rd.editor.OpenFailed?)
            && (r.next.Abort? ==> r.next.err == rd.editor.err)
            && (ran.ret != Fail(OpenEditor) ==> r.state == ran.state && r.effects == ran.effects)
            && (ran.ret == Fail(OpenEditor) && rd.editor.Opened? && rd.update.Fail? ==>
                  r.state.errCnt == ran.state.errCnt + 1)
            && (ran.ret == Fail(OpenEditor) && rd.editor.Opened? && rd.update.Pass? ==>
                  r.state == ran.state)
            && (ran.ret == Fail(OpenEditor) ==>
                  r.effects == ran.effects + [EditorOpened(Current(s))]
                               + (if rd.editor.Opened? then [Updated(Current(s), rd.editor.lines)] else []))
            && ForcedCount(r.effects) == ForcedCount(ran.effects)
            && forall e <- r.effects :: !e.IsFinal()
  {
    var ran := RunUI(s, rd.ui);
    if ran.ret == Fail(OpenEditor) {
      var target := Current(ran.state);
      var withEditor := ran.effects + [EditorOpened(target)];
      ForcedCountAppend(ran.effects, [EditorOpened(target)]);
      if rd.editor.Opened? {
        ForcedCountAppend(withEditor, [Updated(target, rd.editor.lines)]);
      }
    }
  }

  function ExitOf(next: Next): Exit {
    match next
    case Continue => Pending
    case Stop => Quitted
    case Abort(err) => Aborted(err)
  }

  /** mainLoop over `rounds`: every Continue starts the next round. */
  function MainLoop(s: State, rounds: seq<Round>): (r: LoopResult)
    requires Active(s)
    ensures SamePosition(s, r.state)
    decreases |rounds|
  {
    if |rounds| == 0 then LoopResult(s, [], Pending)
    else
      var first := RoundStep(s, rounds[0]);
      if first.next.Continue? then
        var rest := MainLoop(first.state, rounds[1..]);
        LoopResult(rest.state, first.effects + rest.effects, rest.exit)
      else LoopResult(first.state, first.effects, ExitOf(first.next))
  }

  /** The loop is still running after `rounds` exactly when none of them
      quit or failed to open the editor. */
  lemma {:induction false} LoopPendingIffAllContinue(s: State, rounds: seq<Round>)
    requires Active(s)
    ensures MainLoop(s, rounds).exit == Pending <==> forall rd <- rounds :: Verdict(rd).Continue?
    decreases |rounds|
  {
    if |rounds| > 0 {
      var first := RoundStep(s, rounds[0]);
      MainLoopCons(s, rounds);
      assert forall rd <- rounds :: rd == rounds[0] || rd in rounds[1..];
      assert forall rd <- rounds[1..] :: rd in rounds;
      if first.next.Continue? {
        LoopPendingIffAllContinue(first.state, rounds[1..]);
      }
    }
  }

  /** The interactive loop never writes a file back nor prints the summary. */
  lemma {:induction false} MainLoopWritesNothing(s: State, rounds: seq<Round>)
    requires Active(s)
    ensures forall e <- MainLoop(s, rounds).effects :: !e.IsFinal()
    decreases |rounds|
  {
    if |rounds| > 0 {
      var first := RoundStep(s, rounds[0]);
      MainLoopCons(s, rounds);
      RoundStepOutcome(s, rounds[0]);
      if first.next.Continue? {
        MainLoopWritesNothing(first.state, rounds[1..]);
      }
    }
  }

  /** The rounds after the first one whose verdict is not Continue are
      never consulted. */
  lemma {:induction false} LoopIgnoresLaterRounds(s: State, before: seq<Round>, rd: Round, after: seq<Round>)
    requires Active(s)
    requires forall r <- before :: Verdict(r).Continue?
    requires !Verdict(rd).Continue?
    ensures MainLoop(s, before + [rd] + after) == MainLoop(s, before + [rd])
    decreases |before|
  {
    var whole, upTo := before + [rd] + after, before + [rd];
    assert upTo == before + [rd] + [];
    SplitFirst(before, rd, after);
    SplitFirst(before, rd, []);
    MainLoopCons(s, whole);
    MainLoopCons(s, upTo);
    if |before| > 0 {
      assert before[0] in before;
      assert forall r <- before[1..] :: r in before;
      assert before[1..] + [rd] + [] == before[1..] + [rd];
      LoopIgnoresLaterRounds(RoundStep(s, before[0]).state, before[1..], rd, after);
    }
  }

  /** The loop ends at the first round whose verdict is not Continue, with
      that verdict. */
  lemma {:induction false} LoopStopsAtFirstVerdict(s: State, before: seq<Round>, rd: Round, after: seq<Round>)
    requires Active(s)
    requires forall r <- before :: Verdict(r).Continue?
    requires !Verdict(rd).Continue?
    ensures MainLoop(s, before + [rd] + after).exit == ExitOf(Verdict(rd))
    decreases |before|
  {
    var whole := before + [rd] + after;
    SplitFirst(before, rd, after);
    MainLoopCons(s, whole);
    if |before| > 0 {
      assert before[0] in before;
      assert forall r <- before[1..] :: r in before;
      LoopStopsAtFirstVerdict(RoundStep(s, before[0]).state, before[1..], rd, after);
    }
  }

  /** MainLoop on a non-empty sequence: the first round, then, if it
      continues, the loop over the rest. */
  lemma MainLoopCons(s: State, rounds: seq<Round>)
    requires Active(s) && |rounds| > 0
    ensures var first := RoundStep(s, rounds[0]);
            var r := MainLoop(s, rounds);
            if first.next.Continue? then
              var rest := MainLoop(first.state, rounds[1..]);
              r == LoopResult(rest.state, first.effects + rest.effects, rest.exit)
            else r == LoopResult(first.state, first.effects, ExitOf(first.next))
  {
  }

  /** A UI that can never be set up is retried forever: the loop neither
      ends nor changes the session. */
  lemma {:induction false} SetupFailuresRetry(s: State, rounds: seq<Round>)
    requires Active(s)
    requires forall rd <- rounds :: rd.ui.setup.Fail? && rd.ui.setup.err != Quit && rd.ui.setup.err != OpenEditor
    ensures MainLoop(s, rounds) == LoopResult(s, [], Pending)
    decreases |rounds|
  {
    if |rounds| > 0 {
      assert rounds[0] in rounds;
      assert forall rd <- rounds[1..] :: rd in rounds;
      SetupFailuresRetry(s, rounds[1..]);
    }
  }

  /** A run ended by any error other than the quit and editor sentinels, an
      evaluator error included, recreates the UI without touching the session
      any further. */
  lemma OtherErrorsRecreateUi(s: State, rd: Round, msg: string)
    requires Active(s) && RunStatus(rd.ui) == Fail(Other(msg))
    ensures RoundStep(s, rd).next == Continue
    ensures RoundStep(s, rd).state == RunUI(s, rd.ui).state
  {
  }

  /** One round in which a command is applied directly and the next one asks
      for the editor, whose edit is then accepted: the UI is torn down and
      recreated once, with the counter at zero and the cursor unmoved. */
  lemma AppliedThenEditorRound(c0: ConflictRef, c1: ConflictRef)
    ensures var s := State([c0, c1], 0, 0);
            var rd := Round(UiRun(Pass, [Enter("keep left\n", Pass), Enter("e\n", Fail(OpenEditor))], Pass),
                            Opened(["merged"]), Pass);
            RoundStep(s, rd) ==
              RoundResult(s, [Selected(c0, false), Evaluated(c0, "keep left"), PromptPrinted,
                              Evaluated(c0, "e"), EditorOpened(c0), Updated(c0, ["merged"])], Continue)
  {
    var s := State([c0, c1], 0, 0);
    var k0, k1 := Enter("keep left\n", Pass), Enter("e\n", Fail(OpenEditor));
    TrimNewlineAfterAppend("keep left");
    TrimNewlineAfterAppend("e");
    assert "keep left\n" == "keep left" + "\n";
    assert "e\n" == "e" + "\n";
    var p0 := HandleKey(s, k0);
    assert p0 == Step(s, [Evaluated(c0, "keep left"), PromptPrinted], Pass);
    var p1 := HandleKey(s, k1);
    assert p1 == Step(s, [Evaluated(c0, "e")], Fail(OpenEditor));
    assert [k0, k1][1..] == [k1];
    assert HandleKeys(s, [k1]) == p1;
    assert HandleKeys(s, [k0, k1]) == Then(p0, p1);
  }

  /** A run whose first key is the update queued by globalQuit quits the
      loop after selecting the current conflict, leaving the session as it was. */
  lemma AllResolvedQuits(s: State, rd: Round)
    requires Active(s) && rd.ui.setup.Pass? && |rd.ui.keys| > 0 && rd.ui.keys[0] == AllResolved
    ensures RoundStep(s, rd) == RoundResult(s, [Selected(Current(s), false)], Stop)
  {
    assert HandleKeys(s, rd.ui.keys) == Step(s, [], Fail(Quit));
  }

  /** A session over two conflicts: the round above, then a round ended by
      the quit signal queued once everything is resolved. The loop quits with
      the counter at zero and the cursor on the first conflict throughout. */
  lemma EditorRoundTripThenQuit(c0: ConflictRef, c1: ConflictRef)
    ensures var s := State([c0, c1], 0, 0);
            var first := Round(UiRun(Pass, [Enter("keep left\n", Pass), Enter("e\n", Fail(OpenEditor))], Pass),
                               Opened(["merged"]), Pass);
            var second := Round(UiRun(Pass, [AllResolved], Pass), OpenFailed(Other("unused")), Pass);
            MainLoop(s, [first, second]) ==
              LoopResult(s, [Selected(c0, false), Evaluated(c0, "keep left"), PromptPrinted,
                             Evaluated(c0, "e"), EditorOpened(c0), Updated(c0, ["merged"]),
                             Selected(c0, false)],
                         Quitted)
  {
    var s := State([c0, c1], 0, 0);
    var first := Round(UiRun(Pass, [Enter("keep left\n", Pass), Enter("e\n", Fail(OpenEditor))], Pass),
                       Opened(["merged"]), Pass);
    var second := Round(UiRun(Pass, [AllResolved], Pass), OpenFailed(Other("unused")), Pass);
    AppliedThenEditorRound(c0, c1);
    AllResolvedQuits(s, second);
    assert MainLoop(s, [second]) == LoopResult(s, [Selected(c0, false)], Quitted);
    assert [first, second][1..] == [second];
  }
}

=== FILE: program.dfy ===
/** main: bootstrap the session, run the loop, write every file back and
    print the summary. */
module Program {
  import opened Errors
  import opened Registry
  import opened Session
  import opened Loop

  /** The outcomes of everything main consults that lies outside this model:
      key.LoadSettings, os.Getwd, conflict.Find, every run of the UI and the
      editor, and files[i].WriteChanges() for each file position i. */
  datatype Env = Env(
    settings: Status,
    cwd: Result<string>,
    found: Result<seq<File>>,
    rounds: seq<Round>,
    write: nat -> Status)

  /** How the process ends. */
  datatype End =
    | NothingToResolve     // os.Exit(0) after "No conflicts detected"
    | Died(err: Error)     // die(err): message and os.Exit(1)
    | Finished             // main returns after PrintSummary
    | StillRunning         // the given rounds ran out inside mainLoop

  function ExitCode(end: End): int
    requires !end.StillRunning?
  {
    if end.Died? then 1 else 0
  }

  /** Settings loaded, working directory known, and the scan succeeded. */
  predicate Bootstrapped(env: Env) {
    env.settings.Pass? && env.cwd.Success? && env.found.Success?
  }

  /** The session mainLoop starts from: all conflicts found, cursor and
      counter at their initial zero. */
  function Start(files: seq<File>): (s: State)
    ensures |s.conflicts| == Total(files) && s.cur == 0 && s.errCnt == 0
    ensures Total(files) > 0 ==> Active(s)
    ensures |s.conflicts| == |Flatten(files)|
    ensures forall k :: 0 <= k < |s.conflicts| ==>
              ValidRef(files, s.conflicts[k]) && Deref(files, s.conflicts[k]) == Flatten(files)[k]
  {
    RefsLength(files);
    RefsDerefToFlatten(files);
    State(Refs(files), 0, 0)
  }

  /** Files 0 .. n-1 were all written successfully. */
  predicate AllWritten(write: nat -> Status, n: nat) {
    forall i :: 0 <= i < n ==> write(i).Pass?
  }

  /** The write-back loop of main: write the files in order and stop at the
      first failure; `written` lists the files whose WriteChanges was called. */
  method WriteBack(files: seq<File>, write: nat -> Status) returns (written: seq<Effect>, status: Status)
    ensures |written| <= |files|
    ensures forall i :: 0 <= i < |written| ==> written[i] == Written(i)
    ensures forall i :: 0 <= i < |written| - 1 ==> write(i).Pass?
    ensures status.Pass? <==> AllWritten(write, |files|)
    ensures status.Pass? ==> |written| == |files|
    ensures status.Fail? ==> |written| > 0 && status == write(|written| - 1)
  {
    written, status := [], Pass;
    var i := 0;
    while i < |files|
      invariant 0 <= i <= |files| && |written| == i
      invariant forall j :: 0 <= j < i ==> written[j] == Written(j)
      invariant AllWritten(write, i)
    {
      written := written + [Written(i)];
      var result := write(i);
      if result.Fail? {
        status := result;
        return;
      }
      i := i + 1;
    }
  }

  /** The write-back calls for files 0 .. n-1, in that order. */
  function WritesUpTo(n: nat): seq<Effect> {
    seq(n, i requires 0 <= i < n => Written(i))
  }

  /** In `interactive + written + summary`, only `written` can hold writes. */
  lemma WritesComeFromWriteBack(interactive: seq<Effect>, written: seq<Effect>, summary: seq<Effect>)
    requires forall e <- interactive :: !e.IsFinal()
    requires summary == [] || summary == [SummaryPrinted]
    ensures forall e <- interactive + written + summary :: e.Written? ==> e in written
  {
  }

  /** What the end of main leaves behind once mainLoop has returned `loop`:
      the loop's own effects come first; a loop still running or aborted
      writes nothing; the run finishes, with the summary as its last effect,
      exactly when the loop quit and every file was written; and a file is
      written only after the loop quit and every earlier file was written.
      After a quit, exactly the files up to and including the first failing
      write are written, once each and in order; the run then dies with that
      write's error, or finishes with the summary when no write failed. */
  predicate Finalised(files: seq<File>, loop: LoopResult, write: nat -> Status, effects: seq<Effect>, end: End) {
    && loop.effects <= effects
    && (loop.exit == Pending ==> end == StillRunning && effects == loop.effects)
    && (loop.exit.Aborted? ==> end == Died(loop.exit.err) && effects == loop.effects)
    && end != NothingToResolve
    && (end == Finished <==> loop.exit == Quitted && AllWritten(write, |files|))
    && (SummaryPrinted in effects <==> end == Finished)
    && (end == Finished ==> |effects| > 0 && effects[|effects| - 1] == SummaryPrinted)
    && (forall e <- effects :: e.Written? ==> loop.exit == Quitted && e.file < |files| && AllWritten(write, e.file))
    && (loop.exit == Quitted ==>
          exists n :: 0 <= n <= |files|
            && effects == loop.effects + WritesUpTo(n) + (if end == Finished then [SummaryPrinted] else [])
            && (end == Finished ==> n == |files|)
            && (end != Finished ==> 0 < n && AllWritten(write, n - 1) && write(n - 1).Fail? && end == Died(write(n - 1).err)))
  }

  /** A finished run wrote every file exactly once, in order, between the
      loop's calls and the summary. */
  lemma FinishedWritesEveryFile(files: seq<File>, loop: LoopResult, write: nat -> Status, effects: seq<Effect>)
    requires Finalised(files, loop, write, effects, Finished)
    ensures loop.exit == Quitted
    ensures effects == loop.effects + WritesUpTo(|files|) + [SummaryPrinted]
  {
  }

  /** When the first file cannot be written, main dies with that write's
      error right after attempting it, and writes nothing else. */
  lemma FirstWriteFailureDies(files: seq<File>, loop: LoopResult, write: nat -> Status, effects: seq<Effect>, end: End)
    requires Finalised(files, loop, write, effects, end)
    requires loop.exit == Quitted && |files| > 0 && write(0).Fail?
    ensures end == Died(write(0).err)
    ensures effects == loop.effects + [Written(0)]
  {
  }

  /** The end of main once mainLoop has returned: die on its error, otherwise
      write every file back and print the summary. */
  method Finish(files: seq<File>, loop: LoopResult, write: nat -> Status) returns (effects: seq<Effect>, end: End)
    requires forall e <- loop.effects :: !e.IsFinal()
    ensures Finalised(files, loop, write, effects, end)
  {
    effects := loop.effects;
    match loop.exit
    case Pending =>
      end := StillRunning;
    case Aborted(e) =>
      end := Died(e);
    case Quitted =>
      var written, status := WriteBack(files, write);
      assert forall e <- written :: e.Written? ==> e.file < |written|;
      var summary := if status.Fail? then [] else [SummaryPrinted];
      end := if status.Fail? then Died(status.err) else Finished;
      WritesComeFromWriteBack(effects, written, summary);
      assert written == WritesUpTo(|written|);
      effects := effects + written + summary;
  }

  /** main, from start to exit. */
  method Run(env: Env) returns (effects: seq<Effect>, end: End)
    ensures env.settings.Fail? ==> end == Died(env.settings.err) && effects == []
    ensures env.settings.Pass? && env.cwd.Failure? ==> end == Died(env.cwd.err) && effects == []
    ensures env.settings.Pass? && env.cwd.Success? && env.found.Failure? ==>
              end == Died(env.found.err) && effects == []
    ensures end == NothingToResolve <==> Bootstrapped(env) && Total(env.found.value) == 0
    ensures end == NothingToResolve ==> effects == []
    ensures Bootstrapped(env) && Total(env.found.value) > 0 ==>
              Finalised(env.found.value, MainLoop(Start(env.found.value), env.rounds), env.write, effects, end)
    ensures SummaryPrinted in effects <==> end == Finished
    ensures !end.StillRunning? ==>
              (ExitCode(end) == 0 <==>
                 Bootstrapped(env) &&
                 (Total(env.found.value) == 0 ||
                  (MainLoop(Start(env.found.value), env.rounds).exit == Quitted &&
                   AllWritten(env.write, |env.found.value|))))
  {
    if env.settings.Fail? {
      return [], Died(env.settings.err);
    }
    var files, err, conflicts := FindConflicts([], env.cwd, env.found);
    if err.Fail? {
      return [], Died(err.err);
    }
    if |conflicts| == 0 {
      return [], NothingToResolve;
    }
    var start := State(conflicts, 0, 0);
    assert start == Start(files);
    MainLoopWritesNothing(start, env.rounds);
    effects, end := Finish(files, MainLoop(start, env.rounds), env.write);
  }
}

=== FILE: registry.dfy ===
/** Files with conflicts, and the flat list of conflict references the session
    walks through (the package-level `conflicts` slice of pointers). */
module Registry {
  import opened Errors

  /** One conflict region; opaque to the controller apart from its identity. */
  datatype Conflict = Conflict(id: nat)

  /** A file as returned by the conflict finder: its conflicts in file order. */
  datatype File = File(path: string, conflicts: seq<Conflict>)

  /** The pointer `&files[file].Conflicts[index]`. */
  datatype ConflictRef = ConflictRef(file: nat, index: nat)

  predicate ValidRef(files: seq<File>, r: ConflictRef) {
    r.file < |files| && r.index < |files[r.file].conflicts|
  }

  function Deref(files: seq<File>, r: ConflictRef): Conflict
    requires ValidRef(files, r)
  {
    files[r.file].conflicts[r.index]
  }

  /** File order first, then conflict order within a file. */
  predicate Precedes(a: ConflictRef, b: ConflictRef) {
    a.file < b.file || (a.file == b.file && a.index < b.index)
  }

  /** References to the first `n` conflicts of file `i`. */
  function FileRefs(i: nat, n: nat): seq<ConflictRef> {
    seq(n, j requires 0 <= j < n => ConflictRef(i, j))
  }

  /** References to every conflict of `files[..i]`, in the order the nested
      loops of findConflicts append them. */
  function RefsBefore(files: seq<File>, i: nat): seq<ConflictRef>
    requires i <= |files|
  {
    if i == 0 then [] else RefsBefore(files, i - 1) + FileRefs(i - 1, |files[i - 1].conflicts|)
  }

  function Refs(files: seq<File>): seq<ConflictRef> {
    RefsBefore(files, |files|)
  }

  /** How many conflicts `files[..i]` hold together. */
  function CountBefore(files: seq<File>, i: nat): nat
    requires i <= |files|
  {
    if i == 0 then 0 else CountBefore(files, i - 1) + |files[i - 1].conflicts|
  }

  function Total(files: seq<File>): nat {
    CountBefore(files, |files|)
  }

  /** The conflicts of all files, concatenated front to back. */
  function Flatten(files: seq<File>): seq<Conflict> {
    if |files| == 0 then [] else files[0].conflicts + Flatten(files[1..])
  }

  lemma {:induction false} RefsBeforeLength(files: seq<File>, i: nat)
    requires i <= |files|
    ensures |RefsBefore(files, i)| == CountBefore(files, i)
  {
    if i > 0 {
      RefsBeforeLength(files, i - 1);
    }
  }

  /** The flattened list grows by exactly the sum of the per-file counts. */
  lemma RefsLength(files: seq<File>)
    ensures |Refs(files)| == Total(files)
  {
    RefsBeforeLength(files, |files|);
  }

  /** Every reference of `files[..i]` points into one of the first `i` files. */
  lemma {:induction false} RefsBeforeValid(files: seq<File>, i: nat)
    requires i <= |files|
    ensures forall k :: 0 <= k < |RefsBefore(files, i)| ==>
              ValidRef(files, RefsBefore(files, i)[k]) && RefsBefore(files, i)[k].file < i
  {
    if i > 0 {
      RefsBeforeValid(files, i - 1);
    }
  }

  /** Conflict `j` of file `i` sits at position CountBefore(files, i) + j. */
  lemma {:induction false} RefsBeforePosition(files: seq<File>, n: nat, i: nat, j: nat)
    requires n <= |files| && i < n && j < |files[i].conflicts|
    ensures CountBefore(files, i) + j < |RefsBefore(files, n)|
    ensures RefsBefore(files, n)[CountBefore(files, i) + j] == ConflictRef(i, j)
  {
    RefsBeforeLength(files, n);
    RefsBeforeLength(files, n - 1);
    if i < n - 1 {
      RefsBeforePosition(files, n - 1, i, j);
      CountBeforeMonotone(files, i + 1, n - 1);
    }
  }

  lemma {:induction false} CountBeforeMonotone(files: seq<File>, i: nat, n: nat)
    requires i <= n <= |files|
    ensures CountBefore(files, i) <= CountBefore(files, n)
  {
    if i < n {
      CountBeforeMonotone(files, i, n - 1);
    }
  }

  /** Completeness and placement: every conflict of every file is referenced,
      at the index given by the conflicts of the files before it. */
  lemma RefsPosition(files: seq<File>, i: nat, j: nat)
    requires i < |files| && j < |files[i].conflicts|
    ensures CountBefore(files, i) + j < |Refs(files)|
    ensures Refs(files)[CountBefore(files, i) + j] == ConflictRef(i, j)
  {
    RefsBeforePosition(files, |files|, i, j);
  }

  /** Soundness: every reference points at an existing conflict. */
  lemma RefsValid(files: seq<File>)
    ensures forall k :: 0 <= k < |Refs(files)| ==> ValidRef(files, Refs(files)[k])
  {
    RefsBeforeValid(files, |files|);
  }

  /** The references come in strictly increasing (file, conflict) order, so
      none repeats. */
  lemma {:induction false} RefsBeforeOrdered(files: seq<File>, i: nat)
    requires i <= |files|
    ensures forall a, b :: 0 <= a < b < |RefsBefore(files, i)| ==>
              Precedes(RefsBefore(files, i)[a], RefsBefore(files, i)[b])
  {
    if i > 0 {
      RefsBeforeOrdered(files, i - 1);
      RefsBeforeValid(files, i - 1);
    }
  }

  lemma RefsOrdered(files: seq<File>)
    ensures forall a, b :: 0 <= a < b < |Refs(files)| ==> Precedes(Refs(files)[a], Refs(files)[b])
  {
    RefsBeforeOrdered(files, |files|);
  }

  lemma {:induction false} FlattenAppend(a: seq<File>, b: seq<File>)
    ensures Flatten(a + b) == Flatten(a) + Flatten(b)
  {
    if |a| > 0 {
      assert (a + b)[0] == a[0];
      assert (a + b)[1..] == a[1..] + b;
      FlattenAppend(a[1..], b);
    } else {
      assert a + b == b;
    }
  }

  lemma {:induction false} RefsBeforeDeref(files: seq<File>, i: nat)
    requires i <= |files|
    ensures |RefsBefore(files, i)| == |Flatten(files[..i])|
    ensures forall k :: 0 <= k < |RefsBefore(files, i)| ==>
              ValidRef(files, RefsBefore(files, i)[k]) &&
              Deref(files, RefsBefore(files, i)[k]) == Flatten(files[..i])[k]
  {
    RefsBeforeValid(files, i);
    if i > 0 {
      RefsBeforeDeref(files, i - 1);
      assert files[..i] == files[..i - 1] + [files[i - 1]];
      FlattenAppend(files[..i - 1], [files[i - 1]]);
      assert Flatten([files[i - 1]]) == files[i - 1].conflicts + Flatten([]);
    }
  }

  /** Following every reference yields exactly the concatenation of each
      file's conflicts, in file order and then conflict order. */
  lemma RefsDerefToFlatten(files: seq<File>)
    ensures |Refs(files)| == |Flatten(files)|
    ensures forall k :: 0 <= k < |Refs(files)| ==>
              ValidRef(files, Refs(files)[k]) && Deref(files, Refs(files)[k]) == Flatten(files)[k]
  {
    RefsBeforeDeref(files, |files|);
    assert files[..|files|] == files;
  }

  /** findConflicts: scan the working directory and append a reference to
      every conflict found to `conflicts`. `cwd` and `found` are the outcomes
      of os.Getwd and conflict.Find. */
  method FindConflicts(conflicts: seq<ConflictRef>, cwd: Result<string>, found: Result<seq<File>>)
    returns (files: seq<File>, err: Status, conflicts': seq<ConflictRef>)
    ensures cwd.Failure? ==> err == Fail(cwd.err) && files == [] && conflicts' == conflicts
    ensures cwd.Success? && found.Failure? ==> err == Fail(found.err) && files == [] && conflicts' == conflicts
    ensures cwd.Success? && found.Success? ==>
              err == Pass && files == found.value && conflicts' == conflicts + Refs(files)
    ensures |conflicts'| == |conflicts| + Total(files)
  {
    conflicts' := conflicts;
    if cwd.Failure? {
      return [], Fail(cwd.err), conflicts';
    }
    if found.Failure? {
      return [], Fail(found.err), conflicts';
    }
    files, err := found.value, Pass;
    var i := 0;
    while i < |files|
      invariant 0 <= i <= |files|
      invariant conflicts' == conflicts + RefsBefore(files, i)
    {
      var j := 0;
      while j < |files[i].conflicts|
        invariant 0 <= j <= |files[i].conflicts|
        invariant conflicts' == conflicts + RefsBefore(files, i) + FileRefs(i, j)
      {
        assert FileRefs(i, j + 1) == FileRefs(i, j) + [ConflictRef(i, j)];
        conflicts' := conflicts' + [ConflictRef(i, j)];
        j := j + 1;
      }
      i := i + 1;
    }
    RefsLength(files);
  }
}

=== FILE: session.dfy ===
/** The session record: the package-level globals of the controller, threaded
    explicitly, and the calls it makes into collaborators it does not own. */
module Session {
  import opened Errors
  import opened Registry

  /** `conflicts`, `cur` and `consecutiveErrCnt`. */
  datatype State = State(conflicts: seq<ConflictRef>, cur: nat, errCnt: nat)

  /** `conflicts[cur]` can be read without an index panic. */
  predicate Active(s: State) {
    s.cur < |s.conflicts|
  }

  function Current(s: State): ConflictRef
    requires Active(s)
  {
    s.conflicts[s.cur]
  }

  /** Neither the conflict list nor the cursor differ. */
  predicate SamePosition(s: State, t: State) {
    s.conflicts == t.conflicts && s.cur == t.cur
  }

  /** Calls into collaborators whose behaviour the model leaves opaque. */
  datatype Effect =
    | Evaluated(target: ConflictRef, text: string)      // Evaluate(g, v, conflicts[cur], in)
    | Selected(target: ConflictRef, force: bool)        // Select(g, conflicts[cur], force)
    | PromptPrinted                                     // PrintPrompt(g)
    | EditorOpened(target: ConflictRef)                 // editor.Open(conflicts[cur])
    | Updated(target: ConflictRef, lines: seq<string>)  // conflicts[cur].Update(newLines)
    | Written(file: nat)                                // files[file].WriteChanges()
    | SummaryPrinted                                    // PrintSummary(conflicts)
  {
    /** Effects that belong to the final write-back, never to the interactive part. */
    predicate IsFinal() {
      Written? || SummaryPrinted?
    }
  }

  /** What one handler leaves behind: the new state, the calls it made in
      order, and the error it returned. */
  datatype Step = Step(state: State, effects: seq<Effect>, ret: Status)

  /** `x` followed by `y`: the state and error of `y`, the effects of both. */
  function Then(x: Step, y: Step): Step {
    Step(y.state, x.effects + y.effects, y.ret)
  }

  lemma ThenAssociative(x: Step, y: Step, z: Step)
    ensures Then(x, Then(y, z)) == Then(Then(x, y), z)
  {
    assert x.effects + (y.effects + z.effects) == (x.effects + y.effects) + z.effects;
  }

  /** The number of forced (fallback) selections among `effects`. */
  function ForcedCount(effects: seq<Effect>): nat {
    if |effects| == 0 then 0
    else (if effects[0].Selected? && effects[0].force then 1 else 0) + ForcedCount(effects[1..])
  }

  lemma {:induction false} ForcedCountAppend(a: seq<Effect>, b: seq<Effect>)
    ensures ForcedCount(a + b) == ForcedCount(a) + ForcedCount(b)
  {
    if |a| == 0 {
      assert a + b == b;
    } else {
      assert (a + b)[0] == a[0];
      assert (a + b)[1..] == a[1..] + b;
      ForcedCountAppend(a[1..], b);
    }
  }

  /** The head and tail of `before + [x] + after`. */
  lemma SplitFirst<T>(before: seq<T>, x: T, after: seq<T>)
    ensures var whole := before + [x] + after;
            && |whole| > 0
            && (|before| == 0 ==> whole[0] == x && whole[1..] == after)
            && (|before| > 0 ==> whole[0] == before[0] && whole[1..] == before[1..] + [x] + after)
  {
    var whole := before + [x] + after;
    if |before| > 0 {
      assert whole[1..] == before[1..] + [x] + after;
    } else {
      assert whole == [x] + after;
    }
  }

  /** The head and tail of a concatenation whose left part is non-empty. */
  lemma TailOfAppend<T>(a: seq<T>, b: seq<T>)
    requires |a| > 0
    ensures (a + b)[0] == a[0] && (a + b)[1..] == a[1..] + b
  {
  }
}

=== FILE: text.dfy ===
/** Text handling of the input view's buffer. */
module Text {

  predicate EndsWithNewline(s: string) {
    |s| > 0 && s[|s| - 1] == '\n'
  }

  /** `t` is `s` with its one trailing newline removed when it has one, and `s`
      itself otherwise; every other character is kept. */
  predicate StripsOneNewline(s: string, t: string) {
    if EndsWithNewline(s) then s == t + "\n" else t == s
  }

  /** strings.TrimSuffix(s, "\n") */
  function TrimNewline(s: string): (r: string)
    ensures StripsOneNewline(s, r)
    ensures r <= s && |s| - |r| <= 1
  {
    if EndsWithNewline(s) then s[..|s| - 1] else s
  }

  /** At most one answer satisfies StripsOneNewline, so it pins TrimNewline down. */
  lemma StripsOneNewlineUnique(s: string, t: string, u: string)
    requires StripsOneNewline(s, t) && StripsOneNewline(s, u)
    ensures t == u
  {
    if EndsWithNewline(s) {
      assert |t| == |u|;
      assert forall i :: 0 <= i < |t| ==> t[i] == s[i] == u[i];
    }
  }

  /** Appending a newline and trimming it again is the identity. */
  lemma TrimNewlineAfterAppend(t: string)
    ensures TrimNewline(t + "\n") == t
  {
    assert EndsWithNewline(t + "\n");
    StripsOneNewlineUnique(t + "\n", TrimNewline(t + "\n"), t);
  }

  /** Only one of several trailing newlines is removed. */
  lemma TrimNewlineRemovesOnlyOne(t: string)
    ensures TrimNewline(t + "\n\n") == t + "\n"
  {
    assert t + "\n\n" == (t + "\n") + "\n";
    TrimNewlineAfterAppend(t + "\n");
  }
}

=== FILE: tolerance.dfy ===
/** The consecutive-unknown-command counter across a sequence of submitted
    commands in one UI run. */
module Tolerance {
  import opened Errors
  import opened Session
  import opened Dispatch
  import opened Ui

  predicate IsUnknown(k: Key) {
    k.Enter? && k.evaluation == Fail(UnknownCmd)
  }

  /** Length of the run of unknown commands at the end of `keys`. */
  function TrailingUnknowns(keys: seq<Key>): nat {
    if |keys| == 0 || !IsUnknown(keys[|keys| - 1]) then 0
    else 1 + TrailingUnknowns(keys[..|keys| - 1])
  }

  function Max(a: int, b: int): int {
    if a < b then b else a
  }

  /** HandleKeys on a non-empty sequence whose first key does not end the
      run: that key's handler, then the rest. */
  lemma HandleKeysCons(s: State, keys: seq<Key>)
    requires Active(s) && |keys| > 0 && KeyStatus(keys[0]).Pass?
    ensures Active(HandleKey(s, keys[0]).state)
    ensures HandleKeys(s, keys) == Then(HandleKey(s, keys[0]), HandleKeys(HandleKey(s, keys[0]).state, keys[1..]))
  {
  }

  /** Handling `a` and then `b` is handling `a + b`, as long as no key of `a`
      ends the main loop. */
  lemma {:induction false} HandleKeysAppend(s: State, a: seq<Key>, b: seq<Key>)
    requires Active(s) && FirstFailure(a).Pass?
    ensures Active(HandleKeys(s, a).state)
    ensures HandleKeys(s, a + b) == Then(HandleKeys(s, a), HandleKeys(HandleKeys(s, a).state, b))
    decreases |a|
  {
    if |a| == 0 {
      assert a + b == b;
    } else {
      assert KeyStatus(a[0]).Pass? && FirstFailure(a[1..]).Pass?;
      var first := HandleKey(s, a[0]);
      var restA := HandleKeys(first.state, a[1..]);
      var y := HandleKeys(restA.state, b);
      HandleKeysCons(s, a);
      TailOfAppend(a, b);
      HandleKeysCons(s, a + b);
      HandleKeysAppend(first.state, a[1..], b);
      ThenAssociative(first, restA, y);
    }
  }

  /** A handler that returns an error changes nothing. */
  lemma FailingKeyKeepsState(s: State, k: Key)
    requires Active(s) && KeyStatus(k).Fail?
    ensures HandleKey(s, k).state == s
  {
  }

  /** gocui's MainLoop returns at the first handler error: no key after it is
      handled, so what follows that key makes no difference. */
  lemma {:induction false} HandleKeysStopsAtFirstFailure(s: State, before: seq<Key>, k: Key, after: seq<Key>)
    requires Active(s) && FirstFailure(before).Pass? && KeyStatus(k).Fail?
    ensures HandleKeys(s, before + [k] + after) == HandleKeys(s, before + [k])
    decreases |before|
  {
    SplitFirst(before, k, after);
    SplitFirst(before, k, []);
    assert before + [k] + [] == before + [k];
    if |before| > 0 {
      assert before[1..] + [k] + [] == before[1..] + [k];
      HandleKeysStopsAtFirstFailure(HandleKey(s, before[0]).state, before[1..], k, after);
    }
  }

  /** With no key ending the loop, the counter afterwards is the length of the
      trailing run of unknown commands, added to the starting count when the
      whole sequence is such a run. */
  lemma {:induction false} CounterIsTrailingStreak(s: State, keys: seq<Key>)
    requires Active(s) && FirstFailure(keys).Pass?
    ensures HandleKeys(s, keys).state.errCnt ==
              if TrailingUnknowns(keys) == |keys| then s.errCnt + |keys| else TrailingUnknowns(keys)
  {
    if |keys| > 0 {
      var init, last := keys[..|keys| - 1], keys[|keys| - 1];
      assert keys == init + [last];
      FirstFailureIsFirst(keys);
      FirstFailureIsFirst(init);
      assert KeyStatus(last).Pass?;
      HandleKeysAppend(s, init, [last]);
      CounterIsTrailingStreak(s, init);
      var x := HandleKeys(s, init);
      assert HandleKeys(x.state, [last]).state == ParseInput(x.state, last.buffer, last.evaluation).state;
    }
  }

  /** Every unknown command whose incremented count exceeds the threshold
      forces a selection: none for the first three of a streak starting at
      zero, then one for each further unknown command. */
  lemma {:induction false} FallbackCount(s: State, keys: seq<Key>)
    requires Active(s)
    requires forall k <- keys :: IsUnknown(k)
    ensures HandleKeys(s, keys).state.errCnt == s.errCnt + |keys|
    ensures ForcedCount(HandleKeys(s, keys).effects) ==
              if s.errCnt + |keys| <= FallbackThreshold then 0
              else s.errCnt + |keys| - Max(FallbackThreshold, s.errCnt)
    decreases |keys|
  {
    if |keys| > 0 {
      assert keys[0] in keys;
      var first := HandleKey(s, keys[0]);
      ParseInputFallback(s, keys[0].buffer, keys[0].evaluation);
      assert forall k <- keys[1..] :: k in keys;
      FallbackCount(first.state, keys[1..]);
      ForcedCountAppend(first.effects, HandleKeys(first.state, keys[1..]).effects);
    }
  }

  /** Four unknown commands in a row from a fresh counter trigger exactly one
      fallback, and the counter is left at 4, not reset. */
  lemma FourthUnknownFallsBack(s: State, keys: seq<Key>)
    requires Active(s) && s.errCnt == 0
    requires |keys| == 4 && forall k <- keys :: IsUnknown(k)
    ensures ForcedCount(HandleKeys(s, keys).effects) == 1
    ensures HandleKeys(s, keys).state.errCnt == 4
  {
    FallbackCount(s, keys);
  }

  /** Three unknown commands from a fresh counter never trigger the fallback. */
  lemma ThreeUnknownsTolerated(s: State, keys: seq<Key>)
    requires Active(s) && s.errCnt == 0
    requires |keys| == 3 && forall k <- keys :: IsUnknown(k)
    ensures ForcedCount(HandleKeys(s, keys).effects) == 0
  {
    FallbackCount(s, keys);
  }

  /** The counter a UI run leaves continues the one the session brought in:
      recreating the UI does not reset it. With the first `n` keys handled
      and the run ended by key `n` (or by running out of keys), the counter
      is the trailing streak of unknown commands, added to the incoming
      count when the whole prefix is such a streak. */
  lemma RunUICounter(s: State, run: UiRun, n: nat)
    requires Active(s) && n <= |run.keys| && FirstFailure(run.keys[..n]).Pass?
    requires n == |run.keys| || KeyStatus(run.keys[n]).Fail?
    ensures RunUI(s, run).state.errCnt ==
              if run.setup.Fail? then s.errCnt
              else if TrailingUnknowns(run.keys[..n]) == n then s.errCnt + n
              else TrailingUnknowns(run.keys[..n])
  {
    if run.setup.Pass? {
      var keys, pre := run.keys, run.keys[..n];
      CounterIsTrailingStreak(s, pre);
      if n == |keys| {
        assert pre == keys;
      } else {
        var k := keys[n];
        assert keys == pre + [k] + keys[n + 1..];
        HandleKeysStopsAtFirstFailure(s, pre, k, keys[n + 1..]);
        HandleKeysAppend(s, pre, [k]);
        var x := HandleKeys(s, pre);
        FailingKeyKeepsState(x.state, k);
        assert HandleKeys(x.state, [k]).state == x.state;
      }
    }
  }
}

=== FILE: ui.dfy ===
/** runUI: one instance of the terminal UI, from its creation until gocui's
    MainLoop returns. The terminal itself is abstracted away: a run is the
    outcome of the UI's setup, the keys the user submits, and what the
    framework returns if no handler ends the loop first. */
module Ui {
  import opened Errors
  import opened Session
  import opened Dispatch

  /** A key event with a bound handler. */
  datatype Key =
    | Enter(buffer: string, evaluation: Status)  // parseInput; `evaluation` is what Evaluate returns
    | CtrlC                                      // quit
    | AllResolved                                // the update queued by globalQuit

  /** `setup`: gocui.NewGui and the two SetKeybinding calls;
      `keys`: the handled key events in order;
      `end`: what MainLoop returns when no handler returned an error. */
  datatype UiRun = UiRun(setup: Status, keys: seq<Key>, end: Status)

  /** What the handler bound to `k` returns; it never depends on the session. */
  function KeyStatus(k: Key): Status {
    match k
    case Enter(_, evaluation) => if Tolerated(evaluation) then Pass else evaluation
    case _ => Fail(Quit)
  }

  /** The error of the first failing handler, or Pass when none fails. */
  function FirstFailure(keys: seq<Key>): Status {
    if |keys| == 0 then Pass
    else if KeyStatus(keys[0]).Fail? then KeyStatus(keys[0])
    else FirstFailure(keys[1..])
  }

  /** FirstFailure is the error of the earliest failing key. */
  lemma {:induction false} FirstFailureIsFirst(keys: seq<Key>)
    ensures FirstFailure(keys).Pass? <==> forall k <- keys :: KeyStatus(k).Pass?
    ensures FirstFailure(keys).Fail? ==>
              exists i :: 0 <= i < |keys| && FirstFailure(keys) == KeyStatus(keys[i]) &&
                          forall j :: 0 <= j < i ==> KeyStatus(keys[j]).Pass?
  {
    if |keys| > 0 {
      FirstFailureIsFirst(keys[1..]);
      assert forall k <- keys :: k == keys[0] || k in keys[1..];
      if KeyStatus(keys[0]).Pass? && FirstFailure(keys).Fail? {
        var i :| 0 <= i < |keys[1..]| && FirstFailure(keys[1..]) == KeyStatus(keys[1..][i]) &&
                  forall j :: 0 <= j < i ==> KeyStatus(keys[1..][j]).Pass?;
        assert forall j :: 0 <= j < i + 1 ==> KeyStatus(keys[j]).Pass? by {
          forall j | 0 <= j < i + 1 ensures KeyStatus(keys[j]).Pass? {
            if j > 0 {
              assert keys[j] == keys[1..][j - 1];
            }
          }
        }
        assert FirstFailure(keys) == KeyStatus(keys[i + 1]);
      } else if KeyStatus(keys[0]).Fail? {
        assert FirstFailure(keys) == KeyStatus(keys[0]);
      }
    }
  }

  /** Dispatch one key event to its handler. */
  function HandleKey(s: State, k: Key): (r: Step)
    requires Active(s)
    ensures SamePosition(s, r.state)
    ensures r.ret == KeyStatus(k)
    ensures !k.Enter? ==> r.state == s && r.effects == []
  {
    match k
    case Enter(buffer, evaluation) => ParseInput(s, buffer, evaluation)
    case _ => Step(s, [], Fail(Quit))
  }

  /** gocui's MainLoop over the submitted keys: handlers run in order until
      the first one that returns an error, which ends the loop. */
  function HandleKeys(s: State, keys: seq<Key>): (r: Step)
    requires Active(s)
    ensures SamePosition(s, r.state)
    ensures r.ret == FirstFailure(keys)
    decreases |keys|
  {
    if |keys| == 0 then Step(s, [], Pass)
    else
      var first := HandleKey(s, keys[0]);
      if first.ret.Fail? then first
      else
        Then(first, HandleKeys(first.state, keys[1..]))
  }

  /** The handlers of one run write nothing back, and the only selections
      they make are forced selections of the current conflict. */
  lemma {:induction false} HandleKeysEffects(s: State, keys: seq<Key>)
    requires Active(s)
    ensures forall e <- HandleKeys(s, keys).effects ::
              !e.IsFinal() && (e.Selected? ==> e == Selected(Current(s), true))
    decreases |keys|
  {
    if |keys| > 0 {
      var first := HandleKey(s, keys[0]);
      if keys[0].Enter? {
        ParseInputFallback(s, keys[0].buffer, keys[0].evaluation);
      }
      if first.ret.Pass? {
        HandleKeysEffects(first.state, keys[1..]);
      }
    }
  }

  /** What runUI returns for `run`, whatever the session. */
  function RunStatus(run: UiRun): Status {
    if run.setup.Fail? then run.setup
    else if FirstFailure(run.keys).Fail? then FirstFailure(run.keys)
    else run.end
  }

  /** runUI: set the UI up, select the current conflict without forcing, and
      run the main loop until it returns. */
  function RunUI(s: State, run: UiRun): (r: Step)
    requires Active(s)
    ensures SamePosition(s, r.state)
    ensures r.ret == RunStatus(run)
    ensures run.setup.Fail? ==> r.state == s && r.effects == []
    ensures run.setup.Pass? ==> |r.effects| > 0 && r.effects[0] == Selected(Current(s), false)
    ensures forall e <- r.effects :: !e.IsFinal() && (e.Selected? ==> e.target == Current(s))
  {
    if run.setup.Fail? then Step(s, [], run.setup)
    else
      var handled := HandleKeys(s, run.keys);
      HandleKeysEffects(s, run.keys);
      var ret := if handled.ret.Fail? then handled.ret else run.end;
      Step(handled.state, [Selected(Current(s), false)] + handled.effects, ret)
  }
}
